=== FILE: README.md ===
# Post list of the nextjs-crud blog front-end, in Dafny

The blog front-end keeps one collection in its query cache: the list of
posts `{id, userId, title, body}` fetched from a placeholder REST service.
Around the network calls, its components apply a few small pure
functions to that list and to the post text. This project models those
functions as Dafny functions over `seq<Post>` and `string`, and proves
what they guarantee:

- **Cache updaters** (`CreatePost.Updater`, `EditPost.Updater`,
  `DeletePost.Updater`). Each runs after a successful mutation. Create
  prepends the server's post under the local id `max(ids, 0) + 1`. Edit
  replaces the entries that carry the response's id. Delete filters out
  the deleted id. The proofs cover length, order, "nothing else changes",
  idempotence and preservation of unique ids.
- **Form validation** (`Validation`). The create and edit forms carry
  identical Yup schemas. Each requires a title of 3 to 100 characters
  and a body of 10 to 1000 characters, both bounds inclusive. A form is
  submitted only when the schema accepts it. The create payload always
  carries `userId` 1. The edit request keeps the post's id and author.
- **Admin table** (`AdminDashboard`). A case-insensitive substring search
  over title or body comes first. Then a stable sort by id, highest
  first. Then the first 10 rows. Two count cards sit above the table.
- **Post card** (`PostCard`). `truncateText` cuts a body longer than 200
  characters and appends `"..."`. The "Read more"/"Show less" control
  exists only for such a body. The like, bookmark and expand buttons
  each flip one flag.

Support modules: `Seqs` provides an order-preserving `Filter` and the
subsequence relation. `Text` provides ASCII lowercasing and substring
search. `Posts` defines the entity, `MaxId` and unique ids.

Details of the code that the model keeps:

- Create puts the new post at the front of the cached list.
- The local id is `max(ids, 0) + 1`, so an empty fetched list gives the
  new post id 1.
- With no cached list, the server's post is cached with the server's own
  id.
- The title rule's message reads "less than 100 characters", but the
  bound is inclusive: a 100-character title is accepted
  (`Validation.TitleBoundsInclusive`).

Server responses (the created post and the updated post) are parameters
of the updaters. The `Echoes` predicates state what a response that
acknowledges the request looks like. `CreatePost.CreateFlow` and
`EditPost.EditFlow` state the end-to-end effect under that assumption.

## Model

| member | source | states |
|---|---|---|
| Posts.MaxId | components/CreatePostModal.tsx:32 | `Math.max(...ids, 0)` is at least 0 and at least every id, and it is 0 or the id of some entry |
| Validation.Violations | components/CreatePostModal.tsx:48-57 | an empty field reaches the schema as absent and fails only `required`; a non-empty field fails `min` iff it is shorter than the minimum and `max` iff it is longer than the maximum |
| Validation.AcceptsIffInBounds | components/CreatePostModal.tsx:48-57 | the schema accepts a form iff 3 <= title length <= 100 and 10 <= body length <= 1000; `required` adds nothing |
| Validation.TitleBoundsInclusive | components/CreatePostModal.tsx:49-52 | titles of 3 and 100 characters are accepted; titles of 2 and 101 characters are rejected |
| CreatePost.Submit | components/CreatePostModal.tsx:84-90 | a payload is sent iff the form is within the schema's bounds; it carries userId 1 and the form's title and body |
| CreatePost.Updater | components/CreatePostModal.tsx:29-39 | with no cache, the result is exactly `[created]`; otherwise it is one longer and the old list follows unchanged after the head; the head's id is `MaxId + 1`, above every old id and at least 1; its userId, title and body come from the response |
| CreatePost.FirstPostGetsIdOne | components/CreatePostModal.tsx:32-35 | on an empty fetched list the new post gets id 1 |
| CreatePost.AssignedIdIsLeastFresh | components/CreatePostModal.tsx:32-35 | the assigned id exceeds every existing id and is the least positive id that does |
| CreatePost.UpdaterKeepsIdsUnique | components/CreatePostModal.tsx:32-38 | if the cached ids are pairwise distinct, so are the ids after the create |
| CreatePost.CreateFlow | components/CreatePostModal.tsx:28-38 | for an accepted form and an acknowledging response, the head becomes `Post(MaxId + 1, 1, title, body)`, whatever id the server sent, and the old list follows |
| EditPost.Submit | components/EditPostModal.tsx:88-97 | a request is sent iff the form is within the schema's bounds (lines 50-59); it uses the post's own id and userId with the form's title and body |
| EditPost.MergeById | components/EditPostModal.tsx:38-40 | the result has the same length; entries with another id are unchanged at their index; entries with the response's id become the response |
| EditPost.Updater | components/EditPostModal.tsx:35-41 | with no cache, the result is `[updated]`; otherwise it equals the old list pointwise, except that entries with the response's id become the response |
| EditPost.UpdaterKeepsIds | components/EditPostModal.tsx:38-40 | the sequence of ids is unchanged, so unique ids stay unique |
| EditPost.UpdaterWithoutMatch | components/EditPostModal.tsx:38-40 | if no entry has the response's id, the list is unchanged |
| EditPost.UpdaterIdempotent | components/EditPostModal.tsx:38-40 | merging the same response twice equals merging it once |
| EditPost.EditFlow | components/EditPostModal.tsx:30-41 | for an accepted form and an acknowledging response, every entry with the post's id becomes `Post(id, userId, form title, form body)`; every other entry is unchanged |
| DeletePost.Updater | components/DeletePostModal.tsx:29-33 | with no cache, the result is `[]`; no entry keeps the id; the result is a subsequence of the old list and keeps every entry with another id; the length drops by the number of entries with the id |
| DeletePost.OnSuccess | components/DeletePostModal.tsx:26-44 | the id removed from the cache is the id sent to the delete call; every other entry stays |
| DeletePost.UpdaterIdempotent | components/DeletePostModal.tsx:32 | deleting the same id twice equals deleting it once |
| DeletePost.UpdaterRemovesAtMostOne | components/DeletePostModal.tsx:32 | with unique ids, at most one entry is removed, and exactly one when the id is cached |
| DeletePost.UpdaterKeepsIdsUnique | components/DeletePostModal.tsx:32 | removing entries keeps unique ids unique |
| Text.Includes | components/AdminDashboard.tsx:33-34 | `includes` holds iff the needle occurs at some index of the text; the empty needle occurs everywhere |
| AdminDashboard.FilteredPosts | components/AdminDashboard.tsx:32-35 | with no posts, the result is `[]`; otherwise it is a subsequence of the posts; it contains every post the term matches (lowercased title or body includes the lowercased term) and only such posts |
| AdminDashboard.FilteredPostsMultiplicity | components/AdminDashboard.tsx:32-35 | the search keeps every copy of a matching post, as many times as it occurs in the list, and no copy of a post the term does not match |
| AdminDashboard.MatchesIgnoresCase | components/AdminDashboard.tsx:33-34 | a term and its lowercase form match the same posts |
| AdminDashboard.EmptySearchKeepsAll | components/AdminDashboard.tsx:32-35 | an empty search term keeps the whole list, in order |
| AdminDashboard.FilteredPostsKeepIdsUnique | components/AdminDashboard.tsx:32-35 | searching keeps unique ids unique |
| AdminDashboard.SortByIdDesc | components/AdminDashboard.tsx:168 | the sort is a permutation of its input, with ids in non-increasing order |
| AdminDashboard.SortKeepsIdOrder | components/AdminDashboard.tsx:168 | the sort is stable: the posts sharing any one id keep their relative order |
| AdminDashboard.DisplayedRows | components/AdminDashboard.tsx:167-169 | at most 10 rows, exactly `min(10, count)` of them; sorted by id, highest first; drawn from the filtered posts; no filtered post left out has a larger id than a shown row |
| AdminDashboard.DisplayedRowsStrictlyDescending | components/AdminDashboard.tsx:168-169 | with unique ids, the rows are strictly descending by id |
| AdminDashboard.TableRows | components/AdminDashboard.tsx:32-169 | the whole pipeline shows exactly `min(10, number of matching posts)` rows, sorted by id, each one a fetched post that the term matches; no entry appears more often than in the filtered list; no matching post left out of the table has a larger id than a shown row; no rows before the first fetch |
| AdminDashboard.TableRowsStrictlyDescending | components/AdminDashboard.tsx:167-169 | with unique fetched ids, the table is strictly descending by id |
| AdminDashboard.CountCards | components/AdminDashboard.tsx:97-109 | "Total Posts" is the list length (0 with no posts); "Filtered Results" is the filtered length and never exceeds the total |
| AdminDashboard.EmptySearchCardsAgree | components/AdminDashboard.tsx:97-109 | with an empty search term, both cards show the same number |
| PostCard.TruncateText | app/page.tsx:35-38 | a text no longer than the limit is returned unchanged; a longer one becomes its first `limit` characters followed by `"..."`, of length limit + 3 |
| PostCard.TruncateKeepsPrefix | app/page.tsx:35-37 | the result always starts with the first `min(length, limit)` characters of the text |
| PostCard.ToggleControl | app/page.tsx:91-100 | the control exists iff the body is longer than 200 characters; "Read more" is shown while the body is cut to 203 characters; "Show less" is shown while the full body is shown; the label is "Show less" exactly when the card is expanded |
| PostCard.HiddenOnlyWithToggle | app/page.tsx:90-101 | the full body is shown unless the card is collapsed and the body exceeds 200 characters; in that case, the first 200 characters and the marker are shown |
| PostCard.InitialCardCollapsed | app/page.tsx:30-32 | a fresh card is unliked, unbookmarked and collapsed: a long body shows cut with "Read more", a short body shows whole |
| PostCard.Click | app/page.tsx:95 | each button flips its own flag, which always changes the card, and leaves the other two flags alone |
| PostCard.ClickTwiceRestores | app/page.tsx:112 | clicking a button twice restores the card (the like, bookmark and expand toggles are involutions) |
| PostCard.ClicksCommute | app/page.tsx:30-32 | the three flags are independent state: the order of two clicks does not matter |

## Left out

- lib/api.ts: the HTTP calls are I/O against an external service. Their
  responses are parameters of the updaters. The `Echoes` predicates only
  describe an acknowledging response. They do not claim that the service
  sends one.
- components/ViewPostModal.tsx and app/posts/[id]/page.tsx: rendering
  only, with no list logic.
- React, Formik, Dialog and react-query machinery: `useState`, the query
  cache lifecycle, `isPending`/`isError`, `setOpen`, `resetForm`, and the
  ordering of concurrent mutations. Only the pure updaters are modelled.
- Error paths (`onError` console logging, the "Something went wrong"
  view): these are pure presentation.
- The "Average Length" card (components/AdminDashboard.tsx:122): it uses
  floating-point `Math.round` of a division and is NaN for an empty list.
- Validation messages: the model records which Yup tests fail. It does not
  model which message Formik displays.
- Text.Lower: lowercases ASCII letters only; Unicode `toLowerCase` is not
  modelled.
- Lengths are `seq<char>` lengths, not UTF-16 code-unit counts.
- EditPost.MergeById: the response is typed as a whole `Post`, so
  `{...p, ...updated}` is modelled as the response itself. A response
  with missing fields (partial JSON) is not modelled.
- Posts.MaxId: ids are unbounded integers. JavaScript numbers above 2^53,
  NaN ids, and the argument limit of `Math.max(...ids)` on very long lists
  are not modelled.
- AdminDashboard.SortByIdDesc: the comparator `b.id - a.id` is modelled
  on exact integers. Overflowing or non-finite ids are not modelled.
- PostCard.TruncateText: the limit is a natural number. The source only
  passes 200, so the behaviour of `slice` with a negative limit is not
  modelled.
- Router navigation, the share and comment buttons, the hard-coded
  display numbers and the styling are not modelled.

=== FILE: admin_dashboard.dfy ===
/**
  The admin dashboard's table: a case-insensitive search over title and
  body, a sort by id (highest first) and the first ten rows, plus the two
  count cards above the table.
 */
module AdminDashboard {
  import Seqs
  import Text
  import opened Posts

  /** The table shows at most this many rows (`slice(0, 10)`). */
  const PageSize: nat := 10

  /** The search term occurs, ignoring case, in the post's title or body. */
  predicate Matches(post: Post, term: string)
  {
    Text.Includes(Text.Lower(post.title), Text.Lower(term))
    || Text.Includes(Text.Lower(post.body), Text.Lower(term))
  }

  function MatchesTerm(term: string): Post -> bool
  {
    (p: Post) => Matches(p, term)
  }

  /** Case-insensitivity: a term and its lowercase form select the same posts. */
  lemma MatchesIgnoresCase(post: Post, term: string)
    ensures Matches(post, term) <==> Matches(post, Text.Lower(term))
  {
    Text.LowerIdempotent(term);
  }

  /** The empty term occurs in every title. */
  lemma EmptyTermMatches(post: Post)
    ensures Matches(post, [])
  {
    assert Text.OccursAt(Text.Lower(post.title), Text.Lower([]), 0);
  }

  /** `filteredPosts`: the posts the term matches, in list order; `[]` before the first fetch. */
  function FilteredPosts(posts: Option<seq<Post>>, term: string): (r: seq<Post>)
    ensures posts.None? ==> r == []
    ensures posts.Some? ==> Seqs.IsSubsequence(r, posts.value)
    ensures forall i :: 0 <= i < |r| ==> Matches(r[i], term)
    ensures posts.Some? ==> forall i :: 0 <= i < |r| ==> r[i] in posts.value
    ensures posts.Some? ==> forall i :: 0 <= i < |posts.value| && Matches(posts.value[i], term) ==> posts.value[i] in r
  {
    match posts
    case None => []
    case Some(s) => Seqs.Filter(s, MatchesTerm(term))
  }

  /** The search keeps every copy of a matching post and no copy of any other post. */
  lemma FilteredPostsMultiplicity(posts: seq<Post>, term: string, p: Post)
    ensures multiset(FilteredPosts(Some(posts), term))[p] == if Matches(p, term) then multiset(posts)[p] else 0
  {
    Seqs.FilterMultiplicity(posts, MatchesTerm(term), p);
  }

  /** An empty search shows every fetched post. */
  lemma EmptySearchKeepsAll(posts: seq<Post>)
    ensures FilteredPosts(Some(posts), []) == posts
  {
    forall i | 0 <= i < |posts| ensures MatchesTerm([])(posts[i]) {
      EmptyTermMatches(posts[i]);
    }
    Seqs.FilterKeepsAll(posts, MatchesTerm([]));
  }

  /** Ids never increase along the list. */
  ghost predicate SortedByIdDesc(s: seq<Post>)
  {
    forall i, j :: 0 <= i < j < |s| ==> s[i].id >= s[j].id
  }

  /** Every id of `s` is at most `bound`. */
  ghost predicate IdsAtMost(s: seq<Post>, bound: int)
  {
    forall i :: 0 <= i < |s| ==> s[i].id <= bound
  }

  /**
    Inserts `x` before the first entry whose id is not above its own, so
    that among equal ids `x` comes first.
   */
  function InsertById(x: Post, s: seq<Post>): (r: seq<Post>)
    ensures |r| == |s| + 1
    ensures multiset(r) == multiset(s) + multiset{x}
  {
    if |s| == 0 || s[0].id <= x.id then [x] + s
    else
      assert s == [s[0]] + s[1..];
      [s[0]] + InsertById(x, s[1..])
  }

  /** Inserting `x` keeps every id at most `bound`. */
  lemma {:induction false} InsertKeepsBound(x: Post, s: seq<Post>, bound: int)
    requires IdsAtMost(s, bound) && x.id <= bound
    ensures IdsAtMost(InsertById(x, s), bound)
  {
    if |s| > 0 && s[0].id > x.id {
      InsertKeepsBound(x, s[1..], bound);
      var rest := InsertById(x, s[1..]);
      assert forall i :: 1 <= i <= |rest| ==> ([s[0]] + rest)[i] == rest[i - 1];
    }
  }

  /** Inserting into a list sorted by id, highest first, keeps it sorted. */
  lemma {:induction false} InsertKeepsSorted(x: Post, s: seq<Post>)
    requires SortedByIdDesc(s)
    ensures SortedByIdDesc(InsertById(x, s))
  {
    if |s| > 0 && s[0].id > x.id {
      InsertKeepsSorted(x, s[1..]);
      InsertKeepsBound(x, s[1..], s[0].id);
      var rest := InsertById(x, s[1..]);
      assert forall i :: 1 <= i <= |rest| ==> ([s[0]] + rest)[i] == rest[i - 1];
    }
  }

  /** `sort((a, b) => b.id - a.id)`: a stable sort, highest id first. */
  function SortByIdDesc(s: seq<Post>): (r: seq<Post>)
    ensures |r| == |s|
    ensures multiset(r) == multiset(s)
    ensures SortedByIdDesc(r)
  {
    if |s| == 0 then []
    else
      assert s == [s[0]] + s[1..];
      var rest := SortByIdDesc(s[1..]);
      InsertKeepsSorted(s[0], rest);
      InsertById(s[0], rest)
  }

  /** Among the entries with id `k`, an inserted `x` with that id comes first and the rest keep their order. */
  lemma {:induction false} InsertKeepsIdOrder(x: Post, s: seq<Post>, k: int)
    ensures Seqs.Filter(InsertById(x, s), HasId(k))
      == (if x.id == k then [x] else []) + Seqs.Filter(s, HasId(k))
  {
    var keep := HasId(k);
    assert keep(x) == (x.id == k);
    if |s| == 0 || s[0].id <= x.id {
      Seqs.FilterCons(x, s, keep);
    } else {
      var rest := InsertById(x, s[1..]);
      assert InsertById(x, s) == [s[0]] + rest;
      assert s == [s[0]] + s[1..];
      assert keep(s[0]) == (s[0].id == k);
      Seqs.FilterCons(s[0], rest, keep);
      Seqs.FilterCons(s[0], s[1..], keep);
      InsertKeepsIdOrder(x, s[1..], k);
    }
  }

  /** Stability: the posts that share an id keep their relative order. */
  lemma {:induction false} SortKeepsIdOrder(s: seq<Post>, k: int)
    ensures Seqs.Filter(SortByIdDesc(s), HasId(k)) == Seqs.Filter(s, HasId(k))
  {
    if |s| > 0 {
      SortKeepsIdOrder(s[1..], k);
      InsertKeepsIdOrder(s[0], SortByIdDesc(s[1..]), k);
    }
  }

  /** The first `n` entries of the sorted list are some of the input's entries. */
  lemma SortedPrefixFromInput(s: seq<Post>, n: nat)
    requires n <= |s|
    ensures multiset(SortByIdDesc(s)[..n]) <= multiset(s)
  {
    var sorted := SortByIdDesc(s);
    assert sorted == sorted[..n] + sorted[n..];
  }

  /** The first `n` entries of the sorted list have the largest ids of the input. */
  lemma SortedPrefixHoldsLargest(s: seq<Post>, n: nat)
    requires n <= |s|
    ensures forall i, p :: 0 <= i < n && p in s && p !in SortByIdDesc(s)[..n] ==> SortByIdDesc(s)[i].id >= p.id
  {
    var sorted := SortByIdDesc(s);
    forall i, p | 0 <= i < n && p in s && p !in sorted[..n] ensures sorted[i].id >= p.id {
      assert p in multiset(s);
      assert p in multiset(sorted);
      var j :| 0 <= j < |sorted| && sorted[j] == p;
    }
  }

  /** The rows of the table: the filtered posts, highest id first, at most `PageSize` of them. */
  function DisplayedRows(filtered: seq<Post>): (r: seq<Post>)
    ensures |r| <= PageSize
    ensures |r| == if |filtered| < PageSize then |filtered| else PageSize
    ensures SortedByIdDesc(r)
    ensures multiset(r) <= multiset(filtered)
    ensures forall i, p :: 0 <= i < |r| && p in filtered && p !in r ==> r[i].id >= p.id
  {
    var n := if |filtered| < PageSize then |filtered| else PageSize;
    SortedPrefixFromInput(filtered, n);
    SortedPrefixHoldsLargest(filtered, n);
    SortByIdDesc(filtered)[..n]
  }

  /** With unique ids, the rows are strictly descending by id. */
  lemma DisplayedRowsStrictlyDescending(filtered: seq<Post>)
    requires UniqueIds(filtered)
    ensures forall i, j :: 0 <= i < j < |DisplayedRows(filtered)| ==>
      DisplayedRows(filtered)[i].id > DisplayedRows(filtered)[j].id
  {
    var sorted := SortByIdDesc(filtered);
    forall k ensures CountId(sorted, k) <= CountId(filtered, k) {
      SortKeepsIdOrder(filtered, k);
    }
    FewerOccurrencesKeepUnique(sorted, filtered);
  }

  /** The search keeps unique ids unique. */
  lemma FilteredPostsKeepIdsUnique(posts: seq<Post>, term: string)
    requires UniqueIds(posts)
    ensures UniqueIds(FilteredPosts(Some(posts), term))
  {
    var r := FilteredPosts(Some(posts), term);
    forall k ensures CountId(r, k) <= CountId(posts, k) {
      Seqs.FilterFilterLength(posts, MatchesTerm(term), HasId(k));
    }
    FewerOccurrencesKeepUnique(r, posts);
  }

  /** The whole table pipeline: search, sort by id (highest first), first `PageSize` rows. */
  function TableRows(posts: Option<seq<Post>>, term: string): (r: seq<Post>)
    ensures |r| <= PageSize
    ensures posts.None? ==> r == []
    ensures SortedByIdDesc(r)
    ensures forall i :: 0 <= i < |r| ==> Matches(r[i], term)
    ensures posts.Some? ==> forall i :: 0 <= i < |r| ==> r[i] in posts.value
    ensures |r| == if |FilteredPosts(posts, term)| < PageSize then |FilteredPosts(posts, term)| else PageSize
    ensures multiset(r) <= multiset(FilteredPosts(posts, term))
    ensures posts.Some? ==> forall i, p :: 0 <= i < |r| && p in posts.value && Matches(p, term) && p !in r ==> r[i].id >= p.id
  {
    var filtered := FilteredPosts(posts, term);
    var r := DisplayedRows(filtered);
    forall i | 0 <= i < |r| ensures r[i] in filtered {
      assert r[i] in multiset(r);
    }
    forall p | posts.Some? && p in posts.value && Matches(p, term) ensures p in filtered {
      var j :| 0 <= j < |posts.value| && posts.value[j] == p;
    }
    r
  }

  /** With unique ids in the fetched list, the table is strictly descending by id. */
  lemma TableRowsStrictlyDescending(posts: seq<Post>, term: string)
    requires UniqueIds(posts)
    ensures forall i, j :: 0 <= i < j < |TableRows(Some(posts), term)| ==>
      TableRows(Some(posts), term)[i].id > TableRows(Some(posts), term)[j].id
  {
    FilteredPostsKeepIdsUnique(posts, term);
    DisplayedRowsStrictlyDescending(FilteredPosts(Some(posts), term));
  }

  /** The "Total Posts" and "Filtered Results" cards. */
  datatype Stats = Stats(total: nat, filtered: nat)

  /** `posts?.length || 0` and `filteredPosts.length`. */
  function CountCards(posts: Option<seq<Post>>, term: string): (st: Stats)
    ensures posts.None? ==> st == Stats(0, 0)
    ensures posts.Some? ==> st.total == |posts.value|
    ensures st.filtered == |FilteredPosts(posts, term)|
    ensures st.filtered <= st.total
  {
    Stats(match posts case None => 0 case Some(s) => |s|, |FilteredPosts(posts, term)|)
  }

  /** Without a search term both cards show the same number. */
  lemma EmptySearchCardsAgree(posts: Option<seq<Post>>)
    ensures CountCards(posts, []).filtered == CountCards(posts, []).total
  {
    if posts.Some? {
      EmptySearchKeepsAll(posts.value);
    }
  }
}

=== FILE: create_post.dfy ===
/**
  The create modal: the submitted payload and the cache updater that runs
  when the placeholder service acknowledges the new post.
 */
module CreatePost {
  import opened Posts
  import opened Validation

  /** Every post created from this modal is attributed to user 1. */
  const AuthorId := 1

  /**
    Submitting the form: nothing is sent unless the schema accepts it;
    otherwise the payload carries the form's title and body.
   */
  function Submit(form: PostForm): (r: Option<NewPost>)
    ensures r.Some? <==> 3 <= |form.title| <= 100 && 10 <= |form.body| <= 1000
    ensures r.Some? ==> r.value.userId == AuthorId
    ensures r.Some? ==> r.value.title == form.title && r.value.body == form.body
  {
    AcceptsIffInBounds(form);
    if Accepts(form) then Some(NewPost(AuthorId, form.title, form.body)) else None
  }

  /**
    The `setQueryData` updater after a successful create. Without a cached
    list the server's post is cached as is; otherwise it is prepended with
    the id `max(ids, 0) + 1`.
   */
  function Updater(cache: Option<seq<Post>>, created: Post): (r: seq<Post>)
    ensures cache.None? ==> r == [created]
    ensures cache.Some? ==> |r| == |cache.value| + 1 && r[1..] == cache.value
    ensures cache.Some? ==> r[0].id == MaxId(cache.value) + 1
    ensures cache.Some? ==> forall i :: 0 <= i < |cache.value| ==> cache.value[i].id < r[0].id
    ensures cache.Some? ==> r[0].id >= 1
    ensures r[0].userId == created.userId && r[0].title == created.title && r[0].body == created.body
  {
    match cache
    case None => [created]
    case Some(posts) => [created.(id := MaxId(posts) + 1)] + posts
  }

  /** On an empty (but fetched) list the local id is 1. */
  lemma FirstPostGetsIdOne(created: Post)
    ensures Updater(Some([]), created)[0].id == 1
  {
  }

  /** Every id of `s` is below `k`. */
  ghost predicate AllIdsBelow(s: seq<Post>, k: int)
  {
    forall i :: 0 <= i < |s| ==> s[i].id < k
  }

  /** The assigned id is the least positive id above every existing id. */
  lemma AssignedIdIsLeastFresh(posts: seq<Post>, created: Post)
    ensures AllIdsBelow(posts, Updater(Some(posts), created)[0].id)
    ensures forall k :: k >= 1 && AllIdsBelow(posts, k) ==> Updater(Some(posts), created)[0].id <= k
  {
    var m := MaxId(posts);
    if m != 0 {
      var j :| 0 <= j < |posts| && posts[j].id == m;
    }
  }

  /** Prepending a fresh id keeps the ids of the cached list unique. */
  lemma UpdaterKeepsIdsUnique(cache: Option<seq<Post>>, created: Post)
    requires cache.Some? ==> UniqueIds(cache.value)
    ensures UniqueIds(Updater(cache, created))
  {
    var r := Updater(cache, created);
    if cache.Some? {
      forall i, j | 0 <= i < j < |r|
        ensures r[i].id != r[j].id
      {
        assert r[j] == cache.value[j - 1];
        if i > 0 {
          assert r[i] == cache.value[i - 1];
        }
      }
    }
  }

  /** The server acknowledges a create by echoing the payload's fields. */
  predicate Echoes(created: Post, sent: NewPost)
  {
    created.userId == sent.userId && created.title == sent.title && created.body == sent.body
  }

  /**
    The whole create flow on a fetched list: an accepted form ends up at
    the head of the list as a post by user 1 with a fresh local id,
    whatever id the server assigned.
   */
  lemma CreateFlow(posts: seq<Post>, form: PostForm, created: Post)
    requires Submit(form).Some? && Echoes(created, Submit(form).value)
    ensures Updater(Some(posts), created)[0] == Post(MaxId(posts) + 1, AuthorId, form.title, form.body)
    ensures Updater(Some(posts), created)[1..] == posts
  {
  }
}

=== FILE: delete_post.dfy ===
/**
  The delete modal: the id sent to `DELETE /posts/{id}` and the cache
  updater that drops the deleted post from the cached list.
 */
module DeletePost {
  import Seqs
  import opened Posts

  /** `mutation.mutate(post.id)`: the modal deletes its own post. */
  function RequestId(post: Post): int
  {
    post.id
  }

  /** The `setQueryData` updater: `posts.filter(p => p.id !== id)`, or `[]` without a cache. */
  function Updater(cache: Option<seq<Post>>, id: int): (r: seq<Post>)
    ensures cache.None? ==> r == []
    ensures forall i :: 0 <= i < |r| ==> r[i].id != id
    ensures cache.Some? ==> Seqs.IsSubsequence(r, cache.value)
    ensures cache.Some? ==> forall i :: 0 <= i < |cache.value| && cache.value[i].id != id ==> cache.value[i] in r
    ensures cache.Some? ==> |r| == |cache.value| - CountId(cache.value, id)
  {
    match cache
    case None => []
    case Some(posts) =>
      Seqs.FilterComplement(posts, OtherId(id), HasId(id));
      Seqs.Filter(posts, OtherId(id))
  }

  /** The updater the modal runs on success removes exactly the id it asked to delete. */
  function OnSuccess(cache: Option<seq<Post>>, post: Post): (r: seq<Post>)
    ensures forall i :: 0 <= i < |r| ==> r[i].id != RequestId(post)
    ensures cache.Some? ==> forall i :: 0 <= i < |cache.value| && cache.value[i].id != RequestId(post) ==> cache.value[i] in r
  {
    Updater(cache, post.id)
  }

  /** Deleting an id a second time changes nothing. */
  lemma UpdaterIdempotent(cache: Option<seq<Post>>, id: int)
    ensures Updater(Some(Updater(cache, id)), id) == Updater(cache, id)
  {
    if cache.Some? {
      Seqs.FilterIdempotent(cache.value, OtherId(id));
    }
  }

  /** With unique ids at most one entry goes, and exactly one when the id is cached. */
  lemma UpdaterRemovesAtMostOne(posts: seq<Post>, id: int)
    requires UniqueIds(posts)
    ensures |Updater(Some(posts), id)| >= |posts| - 1
    ensures (exists i :: 0 <= i < |posts| && posts[i].id == id) ==> |Updater(Some(posts), id)| == |posts| - 1
  {
    UniqueIdsCount(posts, id);
    if exists i :: 0 <= i < |posts| && posts[i].id == id {
      var i :| 0 <= i < |posts| && posts[i].id == id;
      assert HasId(id)(posts[i]);
      assert posts[i] in Seqs.Filter(posts, HasId(id));
    }
  }

  /** Removing entries keeps the remaining ids unique. */
  lemma UpdaterKeepsIdsUnique(posts: seq<Post>, id: int)
    requires UniqueIds(posts)
    ensures UniqueIds(Updater(Some(posts), id))
  {
    var r := Seqs.Filter(posts, OtherId(id));
    forall k ensures CountId(r, k) <= CountId(posts, k) {
      Seqs.FilterFilterLength(posts, OtherId(id), HasId(k));
    }
    FewerOccurrencesKeepUnique(r, posts);
  }
}

=== FILE: edit_post.dfy ===
/**
  The edit modal: the update request built from the form and the cache
  updater that merges the server's response into the cached list.
 */
module EditPost {
  import opened Posts
  import opened Validation

  /** `PUT /posts/{id}` with a partial post: the URL id plus the three sent fields. */
  datatype UpdateRequest = UpdateRequest(id: int, userId: int, title: string, body: string)

  /**
    Submitting the form for `post`: nothing is sent unless the schema
    accepts it; the request keeps the post's id and author and takes the
    title and body from the form.
   */
  function Submit(post: Post, form: PostForm): (r: Option<UpdateRequest>)
    ensures r.Some? <==> 3 <= |form.title| <= 100 && 10 <= |form.body| <= 1000
    ensures r.Some? ==> r.value.id == post.id && r.value.userId == post.userId
    ensures r.Some? ==> r.value.title == form.title && r.value.body == form.body
  {
    AcceptsIffInBounds(form);
    if Accepts(form) then Some(UpdateRequest(post.id, post.userId, form.title, form.body)) else None
  }

  /**
    `posts.map(p => p.id === updated.id ? {...p, ...updated} : p)`. The
    response is a whole post, so spreading it over a matching entry
    overrides every field of that entry.
   */
  function MergeById(posts: seq<Post>, updated: Post): (r: seq<Post>)
    ensures |r| == |posts|
    ensures forall i :: 0 <= i < |posts| && posts[i].id != updated.id ==> r[i] == posts[i]
    ensures forall i :: 0 <= i < |posts| && posts[i].id == updated.id ==> r[i] == updated
  {
    if |posts| == 0 then []
    else
      var head := if posts[0].id == updated.id then updated else posts[0];
      var rest := MergeById(posts[1..], updated);
      assert forall i :: 1 <= i < |posts| ==> ([head] + rest)[i] == rest[i - 1];
      [head] + rest
  }

  /** The `setQueryData` updater after a successful edit. */
  function Updater(cache: Option<seq<Post>>, updated: Post): (r: seq<Post>)
    ensures cache.None? ==> r == [updated]
    ensures cache.Some? ==> |r| == |cache.value|
    ensures cache.Some? ==> forall i :: 0 <= i < |r| ==>
      r[i] == (if cache.value[i].id == updated.id then updated else cache.value[i])
  {
    match cache
    case None => [updated]
    case Some(posts) => MergeById(posts, updated)
  }

  /** The merge never changes the sequence of ids, so it keeps them unique. */
  lemma UpdaterKeepsIds(posts: seq<Post>, updated: Post)
    ensures Ids(Updater(Some(posts), updated)) == Ids(posts)
    ensures UniqueIds(posts) ==> UniqueIds(Updater(Some(posts), updated))
  {
    var r := Updater(Some(posts), updated);
    assert forall i :: 0 <= i < |posts| ==> r[i].id == posts[i].id;
  }

  /** A response whose id is not cached leaves the list unchanged. */
  lemma UpdaterWithoutMatch(posts: seq<Post>, updated: Post)
    requires forall i :: 0 <= i < |posts| ==> posts[i].id != updated.id
    ensures Updater(Some(posts), updated) == posts
  {
  }

  /** Merging the same response twice is merging it once. */
  lemma UpdaterIdempotent(posts: seq<Post>, updated: Post)
    ensures Updater(Some(Updater(Some(posts), updated)), updated) == Updater(Some(posts), updated)
  {
  }

  /** The server acknowledges an update by echoing the URL id and the sent fields. */
  predicate Echoes(updated: Post, sent: UpdateRequest)
  {
    updated == Post(sent.id, sent.userId, sent.title, sent.body)
  }

  /**
    The whole edit flow on a fetched list: every entry carrying the edited
    post's id keeps that id and its author and takes the form's title and
    body; every other entry is unchanged.
   */
  lemma EditFlow(posts: seq<Post>, post: Post, form: PostForm, updated: Post)
    requires Submit(post, form).Some? && Echoes(updated, Submit(post, form).value)
    ensures |Updater(Some(posts), updated)| == |posts|
    ensures forall i :: 0 <= i < |posts| && posts[i].id == post.id ==>
      Updater(Some(posts), updated)[i] == Post(post.id, post.userId, form.title, form.body)
    ensures forall i :: 0 <= i < |posts| && posts[i].id != post.id ==>
      Updater(Some(posts), updated)[i] == posts[i]
  {
  }
}

=== FILE: post_card.dfy ===
/**
  A post card of the public list: the body preview with its "Read more"
  control and the card's three on/off toggles.
 */
module PostCard {
  import opened Posts

  /** The collapsed card shows this many characters of the body. */
  const PreviewLength: nat := 200

  /** The marker appended to a cut text. */
  const Ellipsis: string := "..."

  /**
    `truncateText`: a text no longer than `maxLength` is kept whole; a
    longer one is cut to its first `maxLength` characters and marked.
   */
  function TruncateText(text: string, maxLength: nat): (r: string)
    ensures |text| <= maxLength ==> r == text
    ensures |text| > maxLength ==> |r| == maxLength + |Ellipsis|
    ensures |text| > maxLength ==> r[..maxLength] == text[..maxLength] && r[maxLength..] == Ellipsis
    ensures |r| <= maxLength + |Ellipsis|
  {
    if |text| <= maxLength then text else text[..maxLength] + Ellipsis
  }

  /** Whatever the lengths, the result starts with the first `min(|text|, maxLength)` characters of `text`. */
  lemma TruncateKeepsPrefix(text: string, maxLength: nat)
    ensures var n := if |text| < maxLength then |text| else maxLength;
      n <= |TruncateText(text, maxLength)| && TruncateText(text, maxLength)[..n] == text[..n]
  {
  }

  /** The "Read more" / "Show less" control is rendered only for a long body. */
  predicate ShowsToggle(body: string)
  {
    |body| > PreviewLength
  }

  /** `showFullContent ? body : truncateText(body, 200)`: the body text the card shows. */
  function DisplayedBody(body: string, expanded: bool): string
  {
    if expanded then body else TruncateText(body, PreviewLength)
  }

  /**
    The control under the body: absent for a short body, otherwise
    labelled by what a click would do to the text shown.
   */
  function ToggleControl(body: string, expanded: bool): (r: Option<string>)
    ensures r.Some? <==> |body| > PreviewLength
    ensures r == Some("Read more") ==> |DisplayedBody(body, expanded)| == PreviewLength + |Ellipsis| < |body| + |Ellipsis|
    ensures r == Some("Show less") ==> DisplayedBody(body, expanded) == body
    ensures r.Some? ==> r.value == "Read more" || r.value == "Show less"
    ensures r.Some? ==> (r.value == "Show less" <==> expanded)
  {
    if ShowsToggle(body) then Some(if expanded then "Show less" else "Read more") else None
  }

  /**
    The body is shortened only while the card is collapsed and the control
    is there to expand it: no text is hidden without a way to reveal it.
   */
  lemma HiddenOnlyWithToggle(body: string, expanded: bool)
    ensures !(ShowsToggle(body) && !expanded) ==> DisplayedBody(body, expanded) == body
    ensures ShowsToggle(body) && !expanded ==>
      |DisplayedBody(body, expanded)| == PreviewLength + |Ellipsis|
      && DisplayedBody(body, expanded)[..PreviewLength] == body[..PreviewLength]
  {
  }

  /** The per-card state: liked, bookmarked, and whether the body is expanded. */
  datatype CardState = CardState(liked: bool, bookmarked: bool, expanded: bool)

  /** A card starts unliked, unbookmarked and collapsed. */
  const InitialCard := CardState(false, false, false)

  /**
    A fresh card shows the collapsed body: a long body is cut and offers
    "Read more", a short one is shown whole with no control.
   */
  lemma InitialCardCollapsed(body: string)
    ensures DisplayedBody(body, InitialCard.expanded) == TruncateText(body, PreviewLength)
    ensures ShowsToggle(body) ==> ToggleControl(body, InitialCard.expanded) == Some("Read more")
    ensures !ShowsToggle(body) ==> DisplayedBody(body, InitialCard.expanded) == body
    ensures !InitialCard.liked && !InitialCard.bookmarked
  {
  }

  /** The three buttons of the card. */
  datatype Toggle = Like | Bookmark | Expand

  /** `setX(!x)`: a click flips its own flag and leaves the other two alone. */
  function Click(s: CardState, t: Toggle): (r: CardState)
    ensures r != s
    ensures t != Like ==> r.liked == s.liked
    ensures t != Bookmark ==> r.bookmarked == s.bookmarked
    ensures t != Expand ==> r.expanded == s.expanded
  {
    match t
    case Like => s.(liked := !s.liked)
    case Bookmark => s.(bookmarked := !s.bookmarked)
    case Expand => s.(expanded := !s.expanded)
  }

  /** Clicking the same button twice restores the card. */
  lemma ClickTwiceRestores(s: CardState, t: Toggle)
    ensures Click(Click(s, t), t) == s
  {
  }

  /** The order of two clicks does not matter. */
  lemma ClicksCommute(s: CardState, a: Toggle, b: Toggle)
    ensures Click(Click(s, a), b) == Click(Click(s, b), a)
  {
  }
}

=== FILE: posts.dfy ===
/**
  The single entity of the blog front-end, a post record, and the facts
  about the ids of a post list that every cache updater relies on.
 */
module Posts {
  import Seqs

  /** A post as the placeholder service returns it (`types/post` Post). */
  datatype Post = Post(id: int, userId: int, title: string, body: string)

  /** The create payload (`types/post` NewPost): a post without an id. */
  datatype NewPost = NewPost(userId: int, title: string, body: string)

  /** A value that may be absent, as the `["posts"]` cache entry is before the first fetch. */
  datatype Option<T> = None | Some(value: T)

  /** The ids of a list, in list order. */
  function Ids(s: seq<Post>): (r: seq<int>)
    ensures |r| == |s|
    ensures forall i :: 0 <= i < |s| ==> r[i] == s[i].id
  {
    if |s| == 0 then [] else [s[0].id] + Ids(s[1..])
  }

  /** No two entries share an id: the collection invariant of the post cache. */
  ghost predicate UniqueIds(s: seq<Post>)
  {
    forall i, j :: 0 <= i < j < |s| ==> s[i].id != s[j].id
  }

  /** `Math.max(...ids, 0)`: the largest id of the list, or 0 when none is larger. */
  function MaxId(s: seq<Post>): (m: int)
    ensures m >= 0
    ensures forall i :: 0 <= i < |s| ==> s[i].id <= m
    ensures m == 0 || exists i :: 0 <= i < |s| && s[i].id == m
  {
    if |s| == 0 then 0
    else
      var rest := MaxId(s[1..]);
      if s[0].id > rest then s[0].id else rest
  }

  /** Selects the entries with id `k`. */
  function HasId(k: int): Post -> bool
  {
    (p: Post) => p.id == k
  }

  /** Selects the entries whose id differs from `k`. */
  function OtherId(k: int): Post -> bool
  {
    (p: Post) => p.id != k
  }

  /** The number of entries with id `k`. */
  function CountId(s: seq<Post>, k: int): nat
  {
    |Seqs.Filter(s, HasId(k))|
  }

  /** With unique ids, an id occurs at most once. */
  lemma {:induction false} UniqueIdsCount(s: seq<Post>, k: int)
    requires UniqueIds(s)
    ensures CountId(s, k) <= 1
  {
    if |s| > 0 {
      UniqueIdsCount(s[1..], k);
    }
  }

  /** Two entries with the same id make that id occur at least twice. */
  lemma {:induction false} SharedIdCount(s: seq<Post>, i: nat, j: nat)
    requires i < j < |s| && s[i].id == s[j].id
    ensures CountId(s, s[i].id) >= 2
  {
    var k := s[i].id;
    if i == 0 {
      assert s[1..][j - 1] == s[j];
      assert |Seqs.Filter(s[1..], HasId(k))| >= 1;
    } else {
      assert s[1..][i - 1] == s[i] && s[1..][j - 1] == s[j];
      SharedIdCount(s[1..], i - 1, j - 1);
    }
  }

  /** A list in which no id occurs more often than in a list with unique ids has unique ids. */
  lemma FewerOccurrencesKeepUnique(a: seq<Post>, b: seq<Post>)
    requires UniqueIds(b)
    requires forall k :: CountId(a, k) <= CountId(b, k)
    ensures UniqueIds(a)
  {
    if !UniqueIds(a) {
      var i, j :| 0 <= i < j < |a| && a[i].id == a[j].id;
      SharedIdCount(a, i, j);
      UniqueIdsCount(b, a[i].id);
    }
  }
}

=== FILE: seqs.dfy ===
/**
  Order-preserving selection over sequences: the `Array.prototype.filter`
  that the post-list updaters and the admin search are built from.
 */
module Seqs {

  /** `a` is obtained from `b` by deleting elements, without reordering. */
  ghost predicate IsSubsequence<T>(a: seq<T>, b: seq<T>)
    decreases |b|
  {
    if |a| == 0 then true
    else if |b| == 0 then false
    else (a[0] == b[0] && IsSubsequence(a[1..], b[1..])) || IsSubsequence(a, b[1..])
  }

  /** The elements of `s` that satisfy `keep`, in their original order. */
  function Filter<T>(s: seq<T>, keep: T -> bool): (r: seq<T>)
    ensures |r| <= |s|
    ensures forall i :: 0 <= i < |r| ==> r[i] in s && keep(r[i])
    ensures forall i :: 0 <= i < |s| && keep(s[i]) ==> s[i] in r
    ensures IsSubsequence(r, s)
  {
    if |s| == 0 then []
    else
      var rest := Filter(s[1..], keep);
      assert s == [s[0]] + s[1..];
      if keep(s[0]) then
        assert ([s[0]] + rest)[1..] == rest;
        [s[0]] + rest
      else rest
  }

  /** Filtering with a predicate that every element meets returns the input. */
  lemma {:induction false} FilterKeepsAll<T>(s: seq<T>, keep: T -> bool)
    requires forall i :: 0 <= i < |s| ==> keep(s[i])
    ensures Filter(s, keep) == s
  {
    if |s| > 0 {
      FilterKeepsAll(s[1..], keep);
    }
  }

  /** Filtering twice with the same predicate is filtering once. */
  lemma {:induction false} FilterIdempotent<T>(s: seq<T>, keep: T -> bool)
    ensures Filter(Filter(s, keep), keep) == Filter(s, keep)
  {
    FilterKeepsAll(Filter(s, keep), keep);
  }

  /** A predicate and its complement split a sequence: their lengths add up. */
  lemma {:induction false} FilterComplement<T>(s: seq<T>, keep: T -> bool, drop: T -> bool)
    requires forall x :: drop(x) <==> !keep(x)
    ensures |Filter(s, keep)| + |Filter(s, drop)| == |s|
  {
    if |s| > 0 {
      FilterComplement(s[1..], keep, drop);
    }
  }

  /** Pre-filtering can only lower the number of elements a second filter selects. */
  lemma {:induction false} FilterFilterLength<T>(s: seq<T>, first: T -> bool, second: T -> bool)
    ensures |Filter(Filter(s, first), second)| <= |Filter(s, second)|
  {
    if |s| > 0 {
      FilterFilterLength(s[1..], first, second);
      var rest := Filter(s[1..], first);
      if first(s[0]) {
        assert ([s[0]] + rest)[1..] == rest;
      }
    }
  }

  /** Filtering distributes over a leading element. */
  lemma FilterCons<T>(x: T, s: seq<T>, keep: T -> bool)
    ensures Filter([x] + s, keep) == (if keep(x) then [x] else []) + Filter(s, keep)
  {
    assert ([x] + s)[1..] == s;
  }

  /** Filtering keeps every copy of a selected element and no copy of any other. */
  lemma {:induction false} FilterMultiplicity<T>(s: seq<T>, keep: T -> bool, x: T)
    ensures multiset(Filter(s, keep))[x] == if keep(x) then multiset(s)[x] else 0
  {
    if |s| > 0 {
      FilterMultiplicity(s[1..], keep, x);
      assert s == [s[0]] + s[1..];
      assert multiset(s) == multiset{s[0]} + multiset(s[1..]);
      FilterCons(s[0], s[1..], keep);
    }
  }
}

=== FILE: text.dfy ===
/**
  The two string operations of the admin search: `toLowerCase` (restricted
  to ASCII letters) and `includes` (substring search).
 */
module Text {

  predicate IsUpper(c: char)
  {
    'A' <= c <= 'Z'
  }

  /** ASCII lowercasing of one character; every other character is kept. */
  function LowerChar(c: char): (d: char)
    ensures !IsUpper(d)
    ensures !IsUpper(c) ==> d == c
    ensures IsUpper(c) ==> 'a' <= d <= 'z' && d as int - c as int == 'a' as int - 'A' as int
  {
    if IsUpper(c) then (c as int - 'A' as int + 'a' as int) as char else c
  }

  /** `toLowerCase`: lowercases character by character. */
  function Lower(s: string): (r: string)
    ensures |r| == |s|
    ensures forall i :: 0 <= i < |s| ==> r[i] == LowerChar(s[i])
  {
    if |s| == 0 then [] else [LowerChar(s[0])] + Lower(s[1..])
  }

  /** Lowercasing a lowercased string changes nothing. */
  lemma LowerIdempotent(s: string)
    ensures Lower(Lower(s)) == Lower(s)
  {
  }

  /** `needle` occurs in `hay` starting at index `i`. */
  ghost predicate OccursAt(hay: string, needle: string, i: int)
  {
    0 <= i && i + |needle| <= |hay| && hay[i..i + |needle|] == needle
  }

  /** `hay.includes(needle)`: the needle occurs somewhere; the empty needle occurs everywhere. */
  function Includes(hay: string, needle: string): (b: bool)
    ensures b <==> exists i :: OccursAt(hay, needle, i)
    decreases |hay|
  {
    if |needle| <= |hay| && hay[..|needle|] == needle then
      assert OccursAt(hay, needle, 0);
      true
    else if |hay| == 0 then
      false
    else
      var b := Includes(hay[1..], needle);
      assert b ==> exists i :: OccursAt(hay, needle, i) by {
        if b {
          var i :| OccursAt(hay[1..], needle, i);
          assert hay[1..][i..i + |needle|] == hay[i + 1..i + 1 + |needle|];
          assert OccursAt(hay, needle, i + 1);
        }
      }
      assert (exists i :: OccursAt(hay, needle, i)) ==> b by {
        if exists i :: OccursAt(hay, needle, i) {
          var i :| OccursAt(hay, needle, i);
          assert i != 0;
          assert hay[1..][i - 1..i - 1 + |needle|] == hay[i..i + |needle|];
          assert OccursAt(hay[1..], needle, i - 1);
        }
      }
      b
  }
}

=== FILE: validation.dfy ===
/**
  The identical Yup schemas of the create and the edit form: a required
  title of 3 to 100 characters and a required body of 10 to 1000
  characters. Formik only submits a form whose schema reports no violation.
 */
module Validation {

  /**
    The form's two fields as Formik holds them. Before validating, Formik
    passes an empty string to the schema as an absent value.
   */
  datatype PostForm = PostForm(title: string, body: string)

  /** The three Yup string tests attached to each field. */
  datatype Rule = Required | MinLength | MaxLength

  /** The inclusive length bounds given to `.min` and `.max`. */
  datatype Bounds = Bounds(min: nat, max: nat)

  const TitleBounds := Bounds(3, 100)
  const BodyBounds := Bounds(10, 1000)

  /**
    The tests a field value fails. An empty field reaches the schema as an
    absent value, which only `required` rejects: Yup's `min` and `max` skip
    absent values. A present value fails `min`/`max` when its length is
    outside the inclusive bounds.
   */
  function Violations(value: string, bounds: Bounds): (v: set<Rule>)
    ensures Required in v <==> |value| == 0
    ensures MinLength in v <==> 0 < |value| < bounds.min
    ensures MaxLength in v <==> |value| > bounds.max
    ensures |value| == 0 ==> v == {Required}
  {
    if |value| == 0 then {Required}
    else
      (if |value| < bounds.min then {MinLength} else {})
      + (if |value| > bounds.max then {MaxLength} else {})
  }

  /** The schema accepts the form: neither field fails any test. */
  predicate Accepts(form: PostForm)
  {
    Violations(form.title, TitleBounds) == {} && Violations(form.body, BodyBounds) == {}
  }

  /**
    Acceptance is exactly the two inclusive length intervals: the
    `required` test adds nothing because both minimums are positive.
   */
  lemma AcceptsIffInBounds(form: PostForm)
    ensures Accepts(form) <==> 3 <= |form.title| <= 100 && 10 <= |form.body| <= 1000
  {
    var vt := Violations(form.title, TitleBounds);
    var vb := Violations(form.body, BodyBounds);
    if !(3 <= |form.title| <= 100) {
      assert Required in vt || MinLength in vt || MaxLength in vt;
    }
    if !(10 <= |form.body| <= 1000) {
      assert Required in vb || MinLength in vb || MaxLength in vb;
    }
  }

  /** The edges of the title bound: 100 characters pass, 101 and 2 do not. */
  lemma TitleBoundsInclusive(body: string)
    requires 10 <= |body| <= 1000
    ensures Accepts(PostForm(seq(100, _ => 'a'), body))
    ensures !Accepts(PostForm(seq(101, _ => 'a'), body))
    ensures !Accepts(PostForm(seq(2, _ => 'a'), body))
    ensures Accepts(PostForm(seq(3, _ => 'a'), body))
  {
    AcceptsIffInBounds(PostForm(seq(100, _ => 'a'), body));
    AcceptsIffInBounds(PostForm(seq(101, _ => 'a'), body));
    AcceptsIffInBounds(PostForm(seq(2, _ => 'a'), body));
    AcceptsIffInBounds(PostForm(seq(3, _ => 'a'), body));
  }
}
